=== FILE: README.md ===
# Sentinel topology refresh — a Dafny model

This project models the Redis Sentinel event watcher of the lettuce client
(`SentinelTopologyRefresh`, master/slave support). The watcher keeps one
pub/sub connection per configured sentinel, subscribed to every channel. It
classifies each event the sentinels publish with two message filters. It
debounces the accepted events per category with a five-second trailing-edge
window. When a window's action fires it either runs every runnable bound by
the caller (topology refresh) or bootstraps the missing sentinel connections
again (sentinel reconnect).

The model is functional: an immutable `Watcher` record holds the closed
flag, the endpoint-to-connection map, the bound runnables and one window slot
per scheduler. Pure step functions transform it. Time is an integer clock in
milliseconds. Connect outcomes and the executor's `isShuttingDown()` answer
are inputs. What the executor is asked to do is an output (`Dispatch`).

Modules, following the structure of the Java class:

- `Text`: `startsWith` and `contains` on strings.
- `MessagePredicates`: the topology and reconnect filters, and a rule
  table as their reference definition.
- `TimedSemaphore`: the window slot, `onEvent`, and replay of a trigger
  sequence for the coalescing properties.
- `ActionScheduler`: `PubSubMessageActionScheduler`, which is the filter,
  the executor check, the semaphore and the dispatch.
- `SentinelTopologyRefresh`: the watcher, with `close`, `bind`,
  `initializeSentinels`, `processMessage` and the two actions.
- `Scenarios`: end-to-end runs on a three-sentinel deployment.

Assumptions about code not in this model:

- The `Timeout` class is not part of this model. A timeout opened at
  `openedAt` is taken to be expired exactly when `now >= openedAt + 5000`.
  Its `remaining()` is taken to be `openedAt + 5000 - now`.
- `compareAndSet` is modelled literally. In a sequential run the slot read
  at the start of `onEvent` is still current at the swap, so the swap
  always succeeds.

Where the code and its natural reading differ, the model follows the code:

- **Argument swap in the reconnect filter.** `MessagePredicate.test`
  declares its parameters as `(message, channel)`. The reconnect filter
  keeps those names. The scheduler calls `filter.test(channel, message)`.
  So inside the reconnect filter, the variable named `channel` holds the
  payload. As called, the filter accepts a message exactly when the payload
  is `+sentinel`, or the payload is `-odown`/`-sdown` and the channel
  starts with `sentinel `. A real `+sentinel` announcement or a
  `-sdown` clearance of a sentinel therefore triggers no reconnect
  (`MessagePredicates.SentinelAnnouncementIsRejected`,
  `Scenarios.SentinelDownClearedIsIgnored`).
- **No closed check at dispatch.** `processMessage` does not consult the
  closed flag. A message delivered after `close()` still schedules a
  refresh, and the refresh still runs the bound runnables. Only the
  reconnect action is a no-op on a closed watcher
  (`Scenarios.MessageAfterCloseStillRefreshes`).
- **No exception from bootstrap.** The aggregated connect failure is thrown
  only when the sentinel list is empty. An empty list records no failure, so
  `initializeSentinels` never throws a `RedisConnectionException` of its
  own. This holds under the assumption, listed below, that every connect
  failure is a `RedisConnectionException`. The model keeps the collected failure
  as an output and proves that nothing is thrown.
- **`bind` on a closed watcher.** `bind` appends the runnable even when
  the watcher is closed. The bootstrap returns at once, so nothing else
  changes.
- **Live runnable list.** The refresh action reads the runnable list when it
  runs, not when it is scheduled.

## Model

| member | source | states |
|---|---|---|
| Text.ContainsIffOccurs | src/main/java/com/lambdaworks/redis/masterslave/SentinelTopologyRefresh.java:245 | the left-to-right `contains` scan succeeds exactly when the infix occurs at some index of the payload |
| MessagePredicates.TopologyTestMatchesRules | src/main/java/com/lambdaworks/redis/masterslave/SentinelTopologyRefresh.java:229-255 | called as the scheduler calls it, the topology filter accepts exactly the (channel, payload) pairs its rule table accepts: five channels with their payload conditions keyed on the master id |
| MessagePredicates.ReconnectTestSwapsArguments | src/main/java/com/lambdaworks/redis/masterslave/SentinelTopologyRefresh.java:258-274 | called as the scheduler calls it, the reconnect filter applies its rules with channel and payload exchanged: it accepts exactly when the payload is `+sentinel`, or the payload is `-odown`/`-sdown` and the channel starts with `sentinel ` |
| MessagePredicates.SentinelAnnouncementIsRejected | src/main/java/com/lambdaworks/redis/masterslave/SentinelTopologyRefresh.java:180 | a `+sentinel` announcement matches the reconnect rule table read the intended way, yet the filter as called rejects it |
| MessagePredicates.SwitchMasterNeedsWholeName | src/main/java/com/lambdaworks/redis/masterslave/SentinelTopologyRefresh.java:231-242 | because of the trailing space, `mymaster 10.0.0.5 …` is a switch-master event for `mymaster` while `mymaster2 10.0.0.5 …` is not |
| TimedSemaphore.OnEvent | src/main/java/com/lambdaworks/redis/masterslave/SentinelTopologyRefresh.java:195-211 | an unexpired window drops the trigger: slot unchanged, consumer not called. An empty or expired slot gets a fresh window opened now, and the consumer is called once with that non-null window, whose remaining time is the full 5000 ms |
| TimedSemaphore.ReplayAdmitsTriggerTimes | src/main/java/com/lambdaworks/redis/masterslave/SentinelTopologyRefresh.java:205-210 | over any trigger sequence, every admission happens at the time of some trigger |
| TimedSemaphore.ReplayFinalSlot | src/main/java/com/lambdaworks/redis/masterslave/SentinelTopologyRefresh.java:205-206 | after any trigger sequence, the slot holds the window of the last admission, or the initial slot if nothing was admitted |
| TimedSemaphore.ReplayWaitsForExpiry | src/main/java/com/lambdaworks/redis/masterslave/SentinelTopologyRefresh.java:197-203 | no trigger is admitted before the window already in the slot expires |
| TimedSemaphore.ReplaySpaced | src/main/java/com/lambdaworks/redis/masterslave/SentinelTopologyRefresh.java:192-211 | over any trigger sequence, any two admissions are at least 5000 ms apart, so each window schedules at most one action |
| TimedSemaphore.DropsInsideWindow | src/main/java/com/lambdaworks/redis/masterslave/SentinelTopologyRefresh.java:199-203 | triggers that fall inside an open window change neither the slot nor the admissions |
| TimedSemaphore.BurstAdmitsOnlyFirst | src/main/java/com/lambdaworks/redis/masterslave/SentinelTopologyRefresh.java:192-211 | a burst that begins on an admitting slot and stays within 5000 ms of its first trigger is admitted exactly once, at its first trigger |
| TimedSemaphore.ReplayCovers | src/main/java/com/lambdaworks/redis/masterslave/SentinelTopologyRefresh.java:195-211 | over time-ordered triggers, every trigger lies inside the window already in the slot at the start or inside the window opened by some admission |
| ActionScheduler.ProcessMessage | src/main/java/com/lambdaworks/redis/masterslave/SentinelTopologyRefresh.java:155-185 | a message the filter rejects, or one arriving while the executor shuts down, changes nothing, does not call the supplier and dispatches nothing. The supplier is called exactly on admission. An admitted message opens a window at `now` and schedules the supplied action after 5000 ms. Nothing is ever submitted for immediate execution |
| ActionScheduler.FeedIsReplayOfAccepted | src/main/java/com/lambdaworks/redis/masterslave/SentinelTopologyRefresh.java:155-172 | feeding a message stream to a running executor schedules actions exactly at the admissions of the semaphore replayed on the accepted messages' times alone. Rejected messages are invisible to the debounce |
| ActionScheduler.ScheduledActionsSpaced | src/main/java/com/lambdaworks/redis/masterslave/SentinelTopologyRefresh.java:144-172 | any two actions one scheduler schedules are at least one window length apart |
| SentinelTopologyRefresh.Create | src/main/java/com/lambdaworks/redis/masterslave/SentinelTopologyRefresh.java:56-65 | a new watcher keeps the given master id and sentinel list, is open and has no connections, no runnables and empty window slots. The topology scheduler filters on that master id; the reconnect scheduler has its own filter |
| SentinelTopologyRefresh.Close | src/main/java/com/lambdaworks/redis/masterslave/SentinelTopologyRefresh.java:67-78 | `close` sets the flag, empties the map and releases exactly the connections the map held. Nothing else changes |
| SentinelTopologyRefresh.CloseIsIdempotent | src/main/java/com/lambdaworks/redis/masterslave/SentinelTopologyRefresh.java:67-78 | a second `close` releases nothing and changes nothing |
| SentinelTopologyRefresh.InitializeSentinels | src/main/java/com/lambdaworks/redis/masterslave/SentinelTopologyRefresh.java:87-127 | never throws: the aggregated connect failure is never rethrown (connect failures assumed to be `RedisConnectionException`). Does nothing on a closed watcher. Ends closed exactly when it started closed or a close landed during it, and then holds no connection. A close landing in the k-th iteration leaves at most k + 1 opened connections, because the closed check stops the loop. Only touches the flag and the map, adds keys only for configured sentinels, and loses track of no connection it opened or found |
| SentinelTopologyRefresh.VisitFrame | src/main/java/com/lambdaworks/redis/masterslave/SentinelTopologyRefresh.java:95-118 | the loop touches only the closed flag and the map, adds keys only for the endpoints it visits, and ends closed exactly when a close landed |
| SentinelTopologyRefresh.VisitNoLeak | src/main/java/com/lambdaworks/redis/masterslave/SentinelTopologyRefresh.java:95-118 | every step of the loop either registers the connection it opens or releases the whole map, so no connection leaks |
| SentinelTopologyRefresh.VisitClosedOpensNothing | src/main/java/com/lambdaworks/redis/masterslave/SentinelTopologyRefresh.java:96-99 | once the loop sees the watcher closed, every later iteration returns at the closed check and opens no connection |
| SentinelTopologyRefresh.VisitStopsAfterClose | src/main/java/com/lambdaworks/redis/masterslave/SentinelTopologyRefresh.java:95-118 | a close landing in the k-th iteration lets the loop open at most k + 1 connections: those before the close and the one in the iteration it lands in |
| SentinelTopologyRefresh.RecordAllIsAggregate | src/main/java/com/lambdaworks/redis/masterslave/SentinelTopologyRefresh.java:111-117 | recording the errors one by one keeps the first as primary and appends the later ones as suppressed causes, in order |
| SentinelTopologyRefresh.VisitSequential | src/main/java/com/lambdaworks/redis/masterslave/SentinelTopologyRefresh.java:95-118 | without a concurrent close, the loop keeps existing entries, adds exactly the unconnected endpoints whose connect succeeds, maps each to its own connection, and records the errors it meets in order |
| SentinelTopologyRefresh.BootstrapSequential | src/main/java/com/lambdaworks/redis/masterslave/SentinelTopologyRefresh.java:87-127 | a bootstrap of an open watcher: new keys = old keys plus the endpoints whose connect succeeded. Existing entries are untouched. The failure is the first error, with later errors suppressed in order |
| SentinelTopologyRefresh.BootstrapTwiceOpensNothing | src/main/java/com/lambdaworks/redis/masterslave/SentinelTopologyRefresh.java:103-110 | a second bootstrap with the same connect outcomes opens and releases nothing and leaves the watcher unchanged: at most one connection per endpoint |
| SentinelTopologyRefresh.Bind | src/main/java/com/lambdaworks/redis/masterslave/SentinelTopologyRefresh.java:80-91 | `bind` appends its runnable, never throws and keeps the watcher valid. On a closed watcher it only appends the runnable: nothing is opened, released or reconnected. It ends closed exactly when it started closed or a close landed during its bootstrap, and a close leaves no connection behind. No connection it opened or found is lost track of. New keys are only configured sentinels. On an open watcher with no concurrent close, the new keys are the old keys plus the sentinels whose connect succeeded, and existing entries are untouched. Apart from the runnable list, the closed flag and the map, nothing changes: sentinels, master id and both schedulers stay as they were. |
| SentinelTopologyRefresh.RunAction | src/main/java/com/lambdaworks/redis/masterslave/SentinelTopologyRefresh.java:129-142 | the refresh action runs exactly the bound runnables, in order, and changes nothing in the watcher. The reconnect action runs no runnable and keeps the runnable list. It ends closed exactly when the watcher was closed or a close landed while it ran, and a close leaves no connection behind. On an open watcher with no concurrent close, it adds exactly the unconnected sentinels whose connect succeeds and leaves existing entries untouched. On a closed watcher neither action changes the watcher. Either action changes at most the closed flag and the map, and keeps the watcher valid. |
| SentinelTopologyRefresh.RefreshRunsBoundRunnablesInOrder | src/main/java/com/lambdaworks/redis/masterslave/SentinelTopologyRefresh.java:133 | assuming no runnable throws, after binding a sequence of runnables, the refresh action runs all bound runnables in registration order |
| SentinelTopologyRefresh.ProcessMessage | src/main/java/com/lambdaworks/redis/masterslave/SentinelTopologyRefresh.java:129-142 | each message reaches both schedulers. The dispatch list is exactly one 5000 ms refresh schedule, if the executor runs, the topology filter accepts and its window admits, followed by exactly one 5000 ms reconnect schedule, if the executor runs, the swapped reconnect filter accepts and its window admits; each action appears at most once. A message that dispatches nothing changes nothing. Afterwards each scheduler keeps its filter; its window is a fresh one opened at `now` if it scheduled its action, and is unchanged otherwise, whatever the other scheduler did. |
| SentinelTopologyRefresh.SchedulersAreIndependent | src/main/java/com/lambdaworks/redis/masterslave/SentinelTopologyRefresh.java:131-141 | what one scheduler does with a message (its window afterwards, whether it schedules its action) does not depend on the other scheduler, the connections, the runnables or the closed flag |
| Scenarios.PartialConnectOnBind | src/main/java/com/lambdaworks/redis/masterslave/SentinelTopologyRefresh.java:87-127 | binding with one of three sentinels down connects the other two and keeps the one error without throwing |
| Scenarios.SwitchMasterAfterPartialConnect | src/main/java/com/lambdaworks/redis/masterslave/SentinelTopologyRefresh.java:129-142 | a switch-master event for the watched master then schedules one refresh after 5 s, which runs the bound runnable once |
| Scenarios.FailoverBurstSchedulesOneRefresh | src/main/java/com/lambdaworks/redis/masterslave/SentinelTopologyRefresh.java:195-211 | a leader election at t=0 and a switch-master at t=1 s schedule a single refresh, from the first message |
| Scenarios.SentinelDownClearedIsIgnored | src/main/java/com/lambdaworks/redis/masterslave/SentinelTopologyRefresh.java:258-274 | a `-sdown` clearance of a sentinel, with its `sentinel …` payload, schedules nothing |
| Scenarios.CloseDuringBootstrapLeavesNothing | src/main/java/com/lambdaworks/redis/masterslave/SentinelTopologyRefresh.java:95-126 | a close landing during the second connect releases the first connection. The second connection, opened after the close, is released by the final re-check. The third sentinel is never tried |
| Scenarios.MessageAfterCloseStillRefreshes | src/main/java/com/lambdaworks/redis/masterslave/SentinelTopologyRefresh.java:129-142 | after `close`, an in-flight failover-end message still schedules a refresh that runs the bound runnable, while the reconnect action changes nothing |

## Left out

- `RedisGeoAsyncCommands`: a generated interface of command declarations with no behaviour.
- `SocketOptionsTest`: it tests builder defaults of a class not in this model, and a real network connect timeout.
- `RedisClient.connectPubSub`, `addListener`, `psubscribe("*")` and `removeListener`: network I/O. A connect is an input outcome per endpoint. Listener registration and subscription are folded into a successful connect. Listener removal is folded into releasing a connection.
- The Netty executor group: `isShuttingDown()` is an input, and `submit`/`schedule` are recorded as `Dispatch` values. Running a dispatched action is a separate call, `RunAction`.
- The effects of the bound runnables: opaque to the watcher. The model records which runnables run, in which order.
- The ASCII `StringCodec` that decodes channel names and payloads: the model takes them as already-decoded strings.
- SentinelTopologyRefresh.InitializeSentinels: every connect failure is assumed to be a `RedisConnectionException`. The catch block catches only that type. Any other exception from connecting, adding the listener or subscribing would escape `initializeSentinels` and `bind`. It would also skip the remaining sentinels and the closed re-check. `ConnectOutcome` cannot express such a failure.
- SentinelTopologyRefresh.RefreshRunsBoundRunnablesInOrder: bound runnables are assumed not to throw. A runnable that throws stops the `forEach`, so the runnables after it do not run.
- Logging, and the `pattern` argument of `processMessage`, which the code ignores.
- Concurrency: compare-and-set races, the non-atomic `containsKey`/`put`, and the `volatile` flag. The only interleaving modelled is one `close()` by another caller landing during a bootstrap: in one iteration between its closed check and its `containsKey` test, or after the loop. Landing there, the close empties the map first, so that iteration connects its sentinel again even if it was connected before; both the old and the new connection end up released. Two concurrent bootstraps can open two connections to one endpoint in the code; the model does not claim otherwise and does not model it.
- SentinelTopologyRefresh.InitializeSentinels: connect outcomes are a function of the endpoint. A sentinel listed twice and refused once is refused again within the same bootstrap.
- Wall-clock time: an integer millisecond clock replaces it. The time a message takes to reach a scheduler is not modelled.

=== FILE: action_scheduler.dfy ===
/**
 `PubSubMessageActionScheduler`: a message filter in front of a
 `TimedSemaphore`. A message the filter accepts while the executor is running
 becomes a trigger; an admitted trigger asks the runnable supplier for its
 action and hands it to the executor.

 The executor is modelled by its answers and by what it is asked to do: a
 `shuttingDown` input for `isShuttingDown()`, and `Dispatch` records for
 `submit` and `schedule`.
 */
module ActionScheduler {

  import opened Options
  import opened MessagePredicates
  import opened TimedSemaphore

  /** The runnables the watcher's suppliers return. */
  datatype Action =
    | RefreshTopology      // run every bound refresh runnable
    | ReconnectSentinels   // run `initializeSentinels` again

  /** A request to the executor: `submit(runnable)` or `schedule(runnable, delay, MILLISECONDS)`. */
  datatype Dispatch = Submit(action: Action) | Schedule(action: Action, delayMillis: int)

  datatype Scheduler = Scheduler(filter: MessagePredicate, slot: Option<Timeout>)

  /** A fresh scheduler: no window open yet. */
  function NewScheduler(filter: MessagePredicate): Scheduler {
    Scheduler(filter, None)
  }

  /** `processingAllowed`: the executor is running and the filter accepts `test(channel, message)`. */
  predicate ProcessingAllowed(s: Scheduler, shuttingDown: bool, channel: string, message: string) {
    !shuttingDown && Test(s.filter, channel, message)
  }

  /** The consumer handed to `onEvent`: submit now on a null timeout, otherwise schedule after its remaining time. */
  function Consume(timeout: Option<Timeout>, runnable: Action, now: int): Dispatch {
    if timeout.None? then Submit(runnable)
    else Schedule(runnable, Remaining(timeout.value, now))
  }

  /** What one message did: the scheduler afterwards, whether the supplier ran, what the executor was asked. */
  datatype Step = Step(scheduler: Scheduler, supplierCalled: bool, dispatched: seq<Dispatch>)

  /**
   `processMessage(channel, message, runnableSupplier)` at time `now`; the
   supplier, when called, yields `supplied`.
   */
  function ProcessMessage(s: Scheduler, shuttingDown: bool, channel: string, message: string,
                          now: int, supplied: Action): (r: Step)
    ensures r.scheduler.filter == s.filter
    ensures r.supplierCalled <==> (ProcessingAllowed(s, shuttingDown, channel, message) && Admits(s.slot, now))
    ensures !r.supplierCalled ==> r.scheduler == s && r.dispatched == []
    ensures r.supplierCalled ==>
              && r.scheduler.slot == Some(Timeout(now))
              && r.dispatched == [Schedule(supplied, TimeoutMillis)]
  {
    if !ProcessingAllowed(s, shuttingDown, channel, message) then
      Step(s, false, [])
    else
      var a := OnEvent(s.slot, now);
      match a.call
      case NotCalled => Step(s.(slot := a.slot), false, [])
      case CalledWith(timeout) =>
        var runnable := supplied;
        Step(s.(slot := a.slot), true, [Consume(timeout, runnable, now)])
  }

  // ---------------------------------------------------------------------------
  // A stream of messages through one scheduler.
  // ---------------------------------------------------------------------------

  /** A message delivered at time `at`. */
  datatype Message = Message(channel: string, payload: string, at: int)

  datatype Fed = Fed(scheduler: Scheduler, scheduledAt: seq<int>)

  /** Delivers the messages in order to a running executor; records when each action was scheduled. */
  function Feed(s: Scheduler, msgs: seq<Message>, supplied: Action): Fed
    decreases |msgs|
  {
    if |msgs| == 0 then Fed(s, [])
    else
      var m := msgs[0];
      var step := ProcessMessage(s, false, m.channel, m.payload, m.at, supplied);
      var rest := Feed(step.scheduler, msgs[1..], supplied);
      Fed(rest.scheduler, (if step.supplierCalled then [m.at] else []) + rest.scheduledAt)
  }

  /** The times of the messages the filter accepts, in delivery order. */
  function AcceptedTimes(filter: MessagePredicate, msgs: seq<Message>): seq<int>
    decreases |msgs|
  {
    if |msgs| == 0 then []
    else (if Test(filter, msgs[0].channel, msgs[0].payload) then [msgs[0].at] else [])
         + AcceptedTimes(filter, msgs[1..])
  }

  /**
   Rejected messages are invisible to the debounce: feeding a message stream
   schedules actions exactly at the admissions of the semaphore replayed on
   the accepted messages' times alone.
   */
  lemma {:induction false} FeedIsReplayOfAccepted(s: Scheduler, msgs: seq<Message>, supplied: Action)
    ensures Feed(s, msgs, supplied).scheduledAt == Replay(s.slot, AcceptedTimes(s.filter, msgs)).admitted
    ensures Feed(s, msgs, supplied).scheduler
         == Scheduler(s.filter, Replay(s.slot, AcceptedTimes(s.filter, msgs)).slot)
    decreases |msgs|
  {
    if |msgs| > 0 {
      var m := msgs[0];
      var step := ProcessMessage(s, false, m.channel, m.payload, m.at, supplied);
      FeedIsReplayOfAccepted(step.scheduler, msgs[1..], supplied);
      var acc := AcceptedTimes(s.filter, msgs);
      if Test(s.filter, m.channel, m.payload) {
        assert acc[0] == m.at && acc[1..] == AcceptedTimes(s.filter, msgs[1..]);
        assert step.scheduler.slot == OnEvent(s.slot, m.at).slot;
      } else {
        assert acc == AcceptedTimes(s.filter, msgs[1..]);
      }
    }
  }

  /** Hence any two actions a scheduler schedules are at least one window length apart. */
  lemma ScheduledActionsSpaced(s: Scheduler, msgs: seq<Message>, supplied: Action)
    ensures Spaced(Feed(s, msgs, supplied).scheduledAt)
  {
    FeedIsReplayOfAccepted(s, msgs, supplied);
    ReplaySpaced(s.slot, AcceptedTimes(s.filter, msgs));
  }
}

=== FILE: message_predicates.dfy ===
/**
 The two message filters of the sentinel watcher. A Redis Sentinel publishes
 its events on channels named after the event ("+switch-master", "-sdown", …)
 with a space-separated payload; the watcher subscribes with the pattern "*"
 and asks each filter whether a (channel, payload) pair concerns it.

 Both filters implement `MessagePredicate.test(message, channel)`. The
 topology filter names its parameters `(channel, message)`; the reconnect
 filter keeps the interface's names `(message, channel)`. The scheduler calls
 `test(channel, message)`, so inside the reconnect filter the parameter
 named `channel` holds the payload. `Test` below reproduces this: arguments
 are passed by position, exactly as Java does.
 */
module MessagePredicates {

  import opened Text

  const ElectedLeader := "+elected-leader"
  const SwitchMaster := "+switch-master"
  const FixSlaveConfig := "fix-slave-config"
  const FailoverEnd := "failover-end"
  const FailoverEndForTimeout := "failover-end-for-timeout"
  /** Channels that signal a topology change whatever their payload. */
  const ProcessingChannels: set<string> := {FailoverEnd, FailoverEndForTimeout}

  const SentinelAdded := "+sentinel"
  const ObjectiveDownCleared := "-odown"
  const SubjectiveDownCleared := "-sdown"
  const SentinelInstance := "sentinel "

  /** `String.format("master %s ", masterId)`; the trailing space keeps "mymaster" from matching "mymaster2". */
  function ElectedLeaderPrefix(masterId: string): string { "master " + masterId + " " }

  /** `String.format("%s ", masterId)`. */
  function SwitchMasterPrefix(masterId: string): string { masterId + " " }

  /** `String.format("@ %s ", masterId)`. */
  function FixSlaveConfigInfix(masterId: string): string { "@ " + masterId + " " }

  /** The two implementations of `MessagePredicate`. */
  datatype MessagePredicate =
    | TopologyRefreshMessagePredicate(masterId: string)
    | SentinelReconnectMessagePredicate

  /** `TopologyRefreshMessagePredicate.test(channel, message)`: any of its four rules accepts. */
  predicate TopologyRefreshTest(masterId: string, channel: string, message: string) {
    || (channel == ElectedLeader && StartsWith(message, ElectedLeaderPrefix(masterId)))
    || (channel == SwitchMaster && StartsWith(message, SwitchMasterPrefix(masterId)))
    || (channel == FixSlaveConfig && Contains(message, FixSlaveConfigInfix(masterId)))
    || channel in ProcessingChannels
  }

  /** `SentinelReconnectMessagePredicate.test(message, channel)`, with its parameters named as declared. */
  predicate SentinelReconnectTest(message: string, channel: string) {
    || channel == SentinelAdded
    || ((channel == ObjectiveDownCleared || channel == SubjectiveDownCleared) && StartsWith(message, SentinelInstance))
  }

  /** `MessagePredicate.test(first, second)`, dispatched on the implementation; arguments bind by position. */
  predicate Test(p: MessagePredicate, first: string, second: string) {
    match p
    case TopologyRefreshMessagePredicate(masterId) => TopologyRefreshTest(masterId, first, second)
    case SentinelReconnectMessagePredicate => SentinelReconnectTest(first, second)
  }

  // ---------------------------------------------------------------------------
  // Reference definition: the event vocabulary as a rule table.
  // ---------------------------------------------------------------------------

  datatype PayloadRule = AnyPayload | PayloadPrefix(prefix: string) | PayloadInfix(infix: string)

  /** A classification rule: an exact channel name and a condition on the payload. */
  datatype Rule = Rule(channel: string, payload: PayloadRule)

  predicate PayloadMatches(r: PayloadRule, payload: string) {
    match r
    case AnyPayload => true
    case PayloadPrefix(p) => StartsWith(payload, p)
    case PayloadInfix(p) => Contains(payload, p)
  }

  predicate RuleMatches(r: Rule, channel: string, payload: string) {
    r.channel == channel && PayloadMatches(r.payload, payload)
  }

  /** Some rule of the table accepts the (channel, payload) pair. */
  predicate TableMatches(rules: seq<Rule>, channel: string, payload: string) {
    exists i :: 0 <= i < |rules| && RuleMatches(rules[i], channel, payload)
  }

  /** The topology-change events for the master named `masterId`. */
  function TopologyRules(masterId: string): seq<Rule> {
    [ Rule(ElectedLeader, PayloadPrefix(ElectedLeaderPrefix(masterId))),
      Rule(SwitchMaster, PayloadPrefix(SwitchMasterPrefix(masterId))),
      Rule(FixSlaveConfig, PayloadInfix(FixSlaveConfigInfix(masterId))),
      Rule(FailoverEnd, AnyPayload),
      Rule(FailoverEndForTimeout, AnyPayload) ]
  }

  /** The sentinel-membership events, read with "channel" meaning the pub/sub channel. */
  function ReconnectRules(): seq<Rule> {
    [ Rule(SentinelAdded, AnyPayload),
      Rule(ObjectiveDownCleared, PayloadPrefix(SentinelInstance)),
      Rule(SubjectiveDownCleared, PayloadPrefix(SentinelInstance)) ]
  }

  /** Called as the scheduler calls it, the topology filter accepts exactly what its rule table accepts. */
  lemma TopologyTestMatchesRules(masterId: string, channel: string, payload: string)
    ensures Test(TopologyRefreshMessagePredicate(masterId), channel, payload)
        <==> TableMatches(TopologyRules(masterId), channel, payload)
  {
    var rules := TopologyRules(masterId);
    if Test(TopologyRefreshMessagePredicate(masterId), channel, payload) {
      if channel == ElectedLeader && StartsWith(payload, ElectedLeaderPrefix(masterId)) {
        assert RuleMatches(rules[0], channel, payload);
      } else if channel == SwitchMaster && StartsWith(payload, SwitchMasterPrefix(masterId)) {
        assert RuleMatches(rules[1], channel, payload);
      } else if channel == FixSlaveConfig && Contains(payload, FixSlaveConfigInfix(masterId)) {
        assert RuleMatches(rules[2], channel, payload);
      } else if channel == FailoverEnd {
        assert RuleMatches(rules[3], channel, payload);
      } else {
        assert RuleMatches(rules[4], channel, payload);
      }
    }
  }

  /**
   Called as the scheduler calls it, the reconnect filter applies its rule
   table with channel and payload exchanged: it looks for the channel name in
   the payload and for the "sentinel " prefix in the channel.
   */
  lemma ReconnectTestSwapsArguments(channel: string, payload: string)
    ensures Test(SentinelReconnectMessagePredicate, channel, payload)
        <==> TableMatches(ReconnectRules(), payload, channel)
    ensures Test(SentinelReconnectMessagePredicate, channel, payload)
        <==> || payload == "+sentinel"
             || ((payload == "-odown" || payload == "-sdown") && StartsWith(channel, "sentinel "))
  {
    var rules := ReconnectRules();
    if payload == SentinelAdded {
      assert RuleMatches(rules[0], payload, channel);
    } else if payload == ObjectiveDownCleared && StartsWith(channel, SentinelInstance) {
      assert RuleMatches(rules[1], payload, channel);
    } else if payload == SubjectiveDownCleared && StartsWith(channel, SentinelInstance) {
      assert RuleMatches(rules[2], payload, channel);
    }
  }

  /**
   A "+sentinel" announcement as Sentinel publishes it is rejected by the
   reconnect filter as called, although its rule table read the intended way
   accepts it.
   */
  lemma SentinelAnnouncementIsRejected()
    ensures TableMatches(ReconnectRules(), "+sentinel", "sentinel 10.0.0.7:26379 10.0.0.7 26379 @ mymaster 10.0.0.5 6379")
    ensures !Test(SentinelReconnectMessagePredicate, "+sentinel", "sentinel 10.0.0.7:26379 10.0.0.7 26379 @ mymaster 10.0.0.5 6379")
  {
    assert RuleMatches(ReconnectRules()[0], "+sentinel", "sentinel 10.0.0.7:26379 10.0.0.7 26379 @ mymaster 10.0.0.5 6379");
  }

  /** The trailing space of the switch-master prefix: a master whose name extends `masterId` does not match. */
  lemma SwitchMasterNeedsWholeName()
    ensures Test(TopologyRefreshMessagePredicate("mymaster"), "+switch-master", "mymaster 10.0.0.5 6380 10.0.0.6 6381")
    ensures !Test(TopologyRefreshMessagePredicate("mymaster"), "+switch-master", "mymaster2 10.0.0.5 6380 10.0.0.6 6381")
  {
    var p := "mymaster 10.0.0.5 6380 10.0.0.6 6381";
    assert p[..|SwitchMasterPrefix("mymaster")|] == "mymaster ";
    var q := "mymaster2 10.0.0.5 6380 10.0.0.6 6381";
    assert q[8] != ' ';
  }
}

=== FILE: options.dfy ===
/** Optional values, standing in for Java references that may be null. */
module Options {

  datatype Option<+T> = None | Some(value: T)
}

=== FILE: scenarios.dfy ===
/**
 End-to-end runs of the watcher on a three-sentinel deployment watching the
 master "mymaster", with times in milliseconds.
 */
module Scenarios {

  import opened Options
  import opened TimedSemaphore
  import opened ActionScheduler
  import opened SentinelTopologyRefresh

  const S1 := Endpoint("10.0.0.1", 26379)
  const S2 := Endpoint("10.0.0.2", 26379)
  const S3 := Endpoint("10.0.0.3", 26379)
  const Refresh := Runnable(1)

  /** S2 refuses connections; S1 and S3 accept. */
  function S2Down(e: Endpoint): ConnectOutcome {
    if e == S2 then Refused(ConnectError(S2, "Connection refused"))
    else Connected(Connection(e, if e == S1 then 1 else 3))
  }

  /** Every sentinel accepts. */
  function AllUp(e: Endpoint): ConnectOutcome {
    Connected(Connection(e, 7))
  }

  lemma S2DownConnectsS1AndS3()
    ensures NewlyConnected([S1, S2, S3], {}, S2Down) == {S1, S3}
  {
    assert S1 == [S1, S2, S3][0] && S3 == [S1, S2, S3][2];
  }

  lemma S2DownFailsOnce()
    ensures Failures([S1, S2, S3], {}, S2Down) == [ConnectError(S2, "Connection refused")]
  {
    var err := ConnectError(S2, "Connection refused");
    assert [S3][1..] == [];
    assert Failures([S3], {}, S2Down) == [];
    assert [S2, S3][1..] == [S3];
    assert Failures([S2, S3], {}, S2Down) == [err] + Failures([S3], {}, S2Down);
    assert [S1, S2, S3][1..] == [S2, S3];
    assert Failures([S1, S2, S3], {}, S2Down) == [] + Failures([S2, S3], {}, S2Down);
  }

  /** Binding with S2 down connects S1 and S3 and keeps S2's error without throwing it. */
  lemma PartialConnectOnBind()
    ensures var b := Bind(Create("mymaster", [S1, S2, S3]), Refresh, S2Down, None);
      && b.thrown == None
      && b.watcher.runnables == [Refresh]
      && b.watcher.connections.Keys == {S1, S3}
      && b.failure == Some(Failure(ConnectError(S2, "Connection refused"), []))
      && b.watcher.topologyRefresh.slot == None
  {
    var w := Create("mymaster", [S1, S2, S3]).(runnables := [Refresh]);
    assert [] + [Refresh] == [Refresh];
    var b := Bind(Create("mymaster", [S1, S2, S3]), Refresh, S2Down, None);
    assert b == InitializeSentinels(w, S2Down, None);
    BootstrapSequential(w, S2Down);
    S2DownConnectsS1AndS3();
    S2DownFailsOnce();
    assert [ConnectError(S2, "Connection refused")][1..] == [];
    assert w.connections.Keys == {};
    assert w.sentinels == [S1, S2, S3];
    assert b.failure == Aggregate(Failures(w.sentinels, w.connections.Keys, S2Down));
    assert b.failure == Aggregate([ConnectError(S2, "Connection refused")]);
  }

  /**
   After that bind, a switch-master announcement schedules one refresh five
   seconds out, and that refresh runs the bound runnable once.
   */
  lemma SwitchMasterAfterPartialConnect()
    ensures var b := Bind(Create("mymaster", [S1, S2, S3]), Refresh, S2Down, None);
      var d := SentinelTopologyRefresh.ProcessMessage(b.watcher, "+switch-master", "mymaster 10.0.0.5 6380 10.0.0.6 6381", 0, false);
      && d.dispatched == [Schedule(RefreshTopology, 5000)]
      && RunAction(d.watcher, RefreshTopology, S2Down, None).invoked == [Refresh]
  {
    PartialConnectOnBind();
    var p := "mymaster 10.0.0.5 6380 10.0.0.6 6381";
    assert p[..9] == "mymaster ";
  }

  /**
   A leader election at t=0 and the switch-master it leads to at t=1s
   produce a single refresh, scheduled by the first message.
   */
  lemma FailoverBurstSchedulesOneRefresh()
    ensures var w := Create("mymaster", [S1, S2, S3]);
      var d1 := SentinelTopologyRefresh.ProcessMessage(w, "+elected-leader", "master mymaster 10.0.0.5 6380", 0, false);
      var d2 := SentinelTopologyRefresh.ProcessMessage(d1.watcher, "+switch-master", "mymaster 10.0.0.5 6380 10.0.0.6 6381", 1000, false);
      && d1.dispatched == [Schedule(RefreshTopology, 5000)]
      && d2.dispatched == []
      && d2.watcher.topologyRefresh.slot == Some(Timeout(0))
  {
    var m := "master mymaster 10.0.0.5 6380";
    assert m[..16] == "master mymaster ";
  }

  /**
   A subjective-down clearance of a sentinel, published on "-sdown" with a
   "sentinel …" payload, triggers no reconnect: the filter sees the payload
   where it expects the channel name.
   */
  lemma SentinelDownClearedIsIgnored()
    ensures var w := Create("mymaster", [S1, S2, S3]);
      SentinelTopologyRefresh.ProcessMessage(w, "-sdown", "sentinel 10.0.0.2:26379 10.0.0.2 26379 @ mymaster 10.0.0.5 6379", 0, false).dispatched == []
  {
  }

  /**
   A close() landing during the second connect of a bootstrap: S1's
   connection is released by that close, S2's connection, opened after it,
   is released by the bootstrap's own final close, and S3 is never tried.
   */
  lemma CloseDuringBootstrapLeavesNothing()
    ensures var r := InitializeSentinels(Create("mymaster", [S1, S2, S3]), AllUp, Some(1));
      && r.watcher.closed
      && r.watcher.connections == map[]
      && r.established == [Connection(S1, 7), Connection(S2, 7)]
      && r.released == {Connection(S1, 7), Connection(S2, 7)}
  {
    var w := Create("mymaster", [S1, S2, S3]);
    var eps := [S1, S2, S3];
    var p0 := Progress(w, [], {}, None);
    var p1 := Attempt(p0, S1, AllUp);
    assert Visit(p0, eps, AllUp, Some(1)) == Visit(p1, eps[1..], AllUp, Some(0));
    var p2 := Attempt(CloseConcurrently(p1), S2, AllUp);
    assert eps[1..] == [S2, S3] && [S2, S3][1..] == [S3] && [S3][1..] == [];
    assert Visit(p1, [S2, S3], AllUp, Some(0)) == Visit(p2, [S3], AllUp, None);
    assert p2.watcher.closed;
    assert Visit(p2, [S3], AllUp, None) == Visit(p2, [], AllUp, None) == p2;
    assert p2.established == [Connection(S1, 7), Connection(S2, 7)];
    assert p2.released == {Connection(S1, 7)};
    assert p2.watcher.connections == map[S2 := Connection(S2, 7)];
    assert Values(p2.watcher.connections) == {Connection(S2, 7)};
  }

  /**
   Closing does not stop a message already being delivered: it still
   schedules a refresh, which still runs the bound runnable. The reconnect
   action on a closed watcher does nothing.
   */
  lemma MessageAfterCloseStillRefreshes()
    ensures var b := Bind(Create("mymaster", [S1, S2, S3]), Refresh, AllUp, None);
      var c := Close(b.watcher).watcher;
      var d := SentinelTopologyRefresh.ProcessMessage(c, "failover-end", "master mymaster 10.0.0.5 6380", 0, false);
      && d.dispatched == [Schedule(RefreshTopology, 5000)]
      && RunAction(d.watcher, RefreshTopology, AllUp, None).invoked == [Refresh]
      && RunAction(d.watcher, ReconnectSentinels, AllUp, None).watcher == d.watcher
  {
  }
}

=== FILE: sentinel_topology_refresh.dfy ===
/**
 `SentinelTopologyRefresh`: keeps one pub/sub connection per configured
 sentinel, feeds every message it receives to the two schedulers (topology
 refresh and sentinel reconnect), and runs the bound refresh runnables when
 the topology scheduler's action fires.

 The model is sequential. Connecting to a sentinel is an input
 (`connect: Endpoint -> ConnectOutcome`); adding the listener and
 subscribing to "*" always follow a successful connect and are folded into
 it. The one interleaving modelled is a `close()` by another caller landing
 during the bootstrap loop (`closeAt`), which is what the loop's re-checks of
 the closed flag exist for.
 */
module SentinelTopologyRefresh {

  import opened Options
  import opened MessagePredicates
  import opened TimedSemaphore
  import opened ActionScheduler

  /** The address of a sentinel (a `RedisURI`). */
  datatype Endpoint = Endpoint(host: string, port: int)

  /** An open pub/sub connection to a sentinel, listener attached and subscribed to "*". */
  datatype Connection = Connection(endpoint: Endpoint, id: nat)

  /** A `RedisConnectionException` raised by a connect attempt. */
  datatype ConnectError = ConnectError(endpoint: Endpoint, reason: string)

  datatype ConnectOutcome = Connected(conn: Connection) | Refused(error: ConnectError)

  /** An exception with the causes added to it through `addSuppressed`, in order. */
  datatype Failure = Failure(primary: ConnectError, suppressed: seq<ConnectError>)

  /** A refresh runnable handed to `bind`. */
  datatype Runnable = Runnable(id: nat)

  datatype Watcher = Watcher(
    masterId: string,
    sentinels: seq<Endpoint>,
    closed: bool,
    connections: map<Endpoint, Connection>,
    runnables: seq<Runnable>,
    topologyRefresh: Scheduler,
    sentinelReconnect: Scheduler)

  /**
   The schedulers still hold the filters the constructor gave them, and a
   closed watcher holds no connection.
   */
  predicate Valid(w: Watcher) {
    && w.topologyRefresh.filter == TopologyRefreshMessagePredicate(w.masterId)
    && w.sentinelReconnect.filter == SentinelReconnectMessagePredicate
    && (w.closed ==> w.connections == map[])
  }

  /** The constructor: each scheduler carries its own filter and an empty window slot. */
  function Create(masterId: string, sentinels: seq<Endpoint>): (w: Watcher)
    ensures w.masterId == masterId && w.sentinels == sentinels
    ensures Valid(w) && !w.closed && w.connections == map[] && w.runnables == []
    ensures w.topologyRefresh.slot.None? && w.sentinelReconnect.slot.None?
  {
    Watcher(masterId, sentinels, false, map[], [],
            NewScheduler(TopologyRefreshMessagePredicate(masterId)),
            NewScheduler(SentinelReconnectMessagePredicate))
  }

  function Values(m: map<Endpoint, Connection>): set<Connection> {
    set e | e in m :: m[e]
  }

  // ---------------------------------------------------------------------------
  // close
  // ---------------------------------------------------------------------------

  /** A watcher after `close()`, and the connections whose listener was removed and which were closed. */
  datatype Closing = Closing(watcher: Watcher, released: set<Connection>)

  /** `close()`: set the flag, then release every connection of a snapshot of the map and remove its key. */
  function Close(w: Watcher): (r: Closing)
    ensures r.watcher.closed && r.watcher.connections == map[]
    ensures r.released == Values(w.connections)
    ensures r.watcher == w.(closed := true, connections := map[])
  {
    var snapshot := w.connections;
    var flagged := w.(closed := true);
    Closing(flagged.(connections := flagged.connections - snapshot.Keys), Values(snapshot))
  }

  /** A second `close()` finds nothing left to release and changes nothing. */
  lemma CloseIsIdempotent(w: Watcher)
    ensures Close(Close(w).watcher) == Closing(Close(w).watcher, {})
  {
  }

  // ---------------------------------------------------------------------------
  // initializeSentinels
  // ---------------------------------------------------------------------------

  /** The state of the bootstrap loop: the watcher, what it opened and released, the failure collected so far. */
  datatype Progress = Progress(watcher: Watcher, established: seq<Connection>, released: set<Connection>,
                               failure: Option<Failure>)

  /** The catch block: the first failure is kept, later ones are added to it as suppressed causes. */
  function Record(failure: Option<Failure>, e: ConnectError): Option<Failure> {
    if failure.None? then Some(Failure(e, []))
    else Some(failure.value.(suppressed := failure.value.suppressed + [e]))
  }

  /** One endpoint's try block: connect and register unless the endpoint already has a connection. */
  function Attempt(p: Progress, ep: Endpoint, connect: Endpoint -> ConnectOutcome): Progress {
    if ep in p.watcher.connections then p
    else
      match connect(ep)
      case Connected(c) =>
        p.(watcher := p.watcher.(connections := p.watcher.connections[ep := c]), established := p.established + [c])
      case Refused(e) =>
        p.(failure := Record(p.failure, e))
  }

  /** A `close()` by another caller, landing between two steps of the loop. */
  function CloseConcurrently(p: Progress): Progress {
    var c := Close(p.watcher);
    p.(watcher := c.watcher, released := p.released + c.released)
  }

  function Countdown(closeAt: Option<nat>): Option<nat> {
    if closeAt.Some? && closeAt.value > 0 then Some(closeAt.value - 1) else None
  }

  /**
   The `forEach` over the sentinels. `closeAt == Some(k)` makes a concurrent
   `close()` land in the k-th iteration, between its closed check and its
   `containsKey` test, or after the loop when k is past the last endpoint.
   A close landing there empties the map first, so that iteration connects
   its sentinel afresh even if it was connected before the close.
   */
  function Visit(p: Progress, eps: seq<Endpoint>, connect: Endpoint -> ConnectOutcome,
                 closeAt: Option<nat>): Progress
    decreases |eps|
  {
    if |eps| == 0 then
      if closeAt.Some? then CloseConcurrently(p) else p
    else
      var next :=
        if p.watcher.closed then p
        else Attempt(if closeAt == Some(0) then CloseConcurrently(p) else p, eps[0], connect);
      Visit(next, eps[1..], connect, Countdown(closeAt))
  }

  /** What `initializeSentinels()` did, including the exception it throws, if any. */
  datatype Bootstrap = Bootstrap(watcher: Watcher, established: seq<Connection>, released: set<Connection>,
                                 failure: Option<Failure>, thrown: Option<Failure>)

  /** Every connection this call opened or found is still registered or has been released. */
  ghost predicate NoLeak(before: map<Endpoint, Connection>, established: seq<Connection>, released: set<Connection>,
                   after: map<Endpoint, Connection>) {
    forall c :: (c in established || c in Values(before)) ==> c in released || c in Values(after)
  }

  /**
   `initializeSentinels()`. It never throws: the throw needs an empty sentinel
   list, and an empty list records no failure. A watcher closed at the end
   holds no connection, and no connection is lost track of on the way.
   */
  function InitializeSentinels(w: Watcher, connect: Endpoint -> ConnectOutcome, closeAt: Option<nat>): (r: Bootstrap)
    ensures r.thrown == None
    ensures w.closed ==> r == Bootstrap(w, [], {}, None, None)
    ensures r.watcher.closed <==> w.closed || closeAt.Some?
    ensures !w.closed && r.watcher.closed ==> r.watcher.connections == map[]
    ensures Valid(w) ==> Valid(r.watcher)
    ensures r.watcher == w.(closed := r.watcher.closed, connections := r.watcher.connections)
    ensures NoLeak(w.connections, r.established, r.released, r.watcher.connections)
    ensures r.watcher.connections.Keys <= w.connections.Keys + set e | e in w.sentinels
    ensures closeAt.Some? ==> |r.established| <= closeAt.value + 1
  {
    if w.closed then Bootstrap(w, [], {}, None, None)
    else
      var start := Progress(w, [], {}, None);
      var p := Visit(start, w.sentinels, connect, closeAt);
      VisitFrame(start, w.sentinels, connect, closeAt);
      VisitNoLeak(start, w.sentinels, connect, closeAt, w.connections);
      VisitStopsAfterClose(start, w.sentinels, connect, closeAt);
      if |w.sentinels| == 0 && p.failure.Some? then
        Bootstrap(p.watcher, p.established, p.released, p.failure, p.failure)
      else if p.watcher.closed then
        var c := Close(p.watcher);
        Bootstrap(c.watcher, p.established, p.released + c.released, p.failure, None)
      else
        Bootstrap(p.watcher, p.established, p.released, p.failure, None)
  }

  /** The loop only touches the closed flag and the map; the flag ends set exactly when a close landed. */
  lemma {:induction false} VisitFrame(p: Progress, eps: seq<Endpoint>, connect: Endpoint -> ConnectOutcome,
                                      closeAt: Option<nat>)
    ensures var q := Visit(p, eps, connect, closeAt);
      && q.watcher == p.watcher.(closed := q.watcher.closed, connections := q.watcher.connections)
      && (q.watcher.closed <==> p.watcher.closed || closeAt.Some?)
      && (|eps| == 0 ==> q.failure == p.failure)
      && q.watcher.connections.Keys <= p.watcher.connections.Keys + set e | e in eps
    decreases |eps|
  {
    if |eps| > 0 {
      var next :=
        if p.watcher.closed then p
        else Attempt(if closeAt == Some(0) then CloseConcurrently(p) else p, eps[0], connect);
      VisitFrame(next, eps[1..], connect, Countdown(closeAt));
    }
  }

  /** Once the loop sees the watcher closed, it tries no further sentinel and opens nothing. */
  lemma {:induction false} VisitClosedOpensNothing(p: Progress, eps: seq<Endpoint>, connect: Endpoint -> ConnectOutcome,
                                                   closeAt: Option<nat>)
    requires p.watcher.closed
    ensures Visit(p, eps, connect, closeAt).established == p.established
    decreases |eps|
  {
    if |eps| > 0 {
      VisitClosedOpensNothing(p, eps[1..], connect, Countdown(closeAt));
    }
  }

  /**
   A close landing in the k-th iteration leaves at most k + 1 new
   connections: one per iteration up to and including the one the close
   lands in, whose `containsKey` test no longer sees the emptied entry.
   */
  lemma {:induction false} VisitStopsAfterClose(p: Progress, eps: seq<Endpoint>, connect: Endpoint -> ConnectOutcome,
                                                closeAt: Option<nat>)
    ensures closeAt.Some? ==> |Visit(p, eps, connect, closeAt).established| <= |p.established| + closeAt.value + 1
    decreases |eps|
  {
    if |eps| > 0 && closeAt.Some? {
      var next :=
        if p.watcher.closed then p
        else Attempt(if closeAt == Some(0) then CloseConcurrently(p) else p, eps[0], connect);
      assert |next.established| <= |p.established| + 1;
      if closeAt.value == 0 {
        assert next.watcher.closed;
        VisitClosedOpensNothing(next, eps[1..], connect, Countdown(closeAt));
      } else {
        VisitStopsAfterClose(next, eps[1..], connect, Countdown(closeAt));
      }
    }
  }

  /** Each step either registers what it opens or releases the whole map, so nothing leaks. */
  lemma {:induction false} VisitNoLeak(p: Progress, eps: seq<Endpoint>, connect: Endpoint -> ConnectOutcome,
                                       closeAt: Option<nat>, before: map<Endpoint, Connection>)
    requires NoLeak(before, p.established, p.released, p.watcher.connections)
    ensures var q := Visit(p, eps, connect, closeAt);
      NoLeak(before, q.established, q.released, q.watcher.connections)
    decreases |eps|
  {
    if |eps| == 0 {
      if closeAt.Some? {
        CloseKeepsNoLeak(p, before);
      }
    } else {
      var mid := if closeAt == Some(0) then CloseConcurrently(p) else p;
      if closeAt == Some(0) {
        CloseKeepsNoLeak(p, before);
      }
      var next := if p.watcher.closed then p else Attempt(mid, eps[0], connect);
      if !p.watcher.closed {
        AttemptKeepsNoLeak(mid, eps[0], connect, before);
      }
      VisitNoLeak(next, eps[1..], connect, Countdown(closeAt), before);
    }
  }

  lemma CloseKeepsNoLeak(p: Progress, before: map<Endpoint, Connection>)
    requires NoLeak(before, p.established, p.released, p.watcher.connections)
    ensures var q := CloseConcurrently(p); NoLeak(before, q.established, q.released, q.watcher.connections)
  {
  }

  lemma AttemptKeepsNoLeak(p: Progress, ep: Endpoint, connect: Endpoint -> ConnectOutcome,
                           before: map<Endpoint, Connection>)
    requires NoLeak(before, p.established, p.released, p.watcher.connections)
    ensures var q := Attempt(p, ep, connect); NoLeak(before, q.established, q.released, q.watcher.connections)
  {
    if ep !in p.watcher.connections && connect(ep).Connected? {
      var q := Attempt(p, ep, connect);
      var m := p.watcher.connections;
      forall c | c in Values(m) ensures c in Values(q.watcher.connections) {
        var e :| e in m && m[e] == c;
        assert q.watcher.connections[e] == c;
      }
      assert q.watcher.connections[ep] == connect(ep).conn;
    }
  }

  // ---------------------------------------------------------------------------
  // Reference definitions for the sequential bootstrap.
  // ---------------------------------------------------------------------------

  /** The endpoints of `eps` without a connection in `keys` whose connect succeeds. */
  function NewlyConnected(eps: seq<Endpoint>, keys: set<Endpoint>, connect: Endpoint -> ConnectOutcome): set<Endpoint> {
    set i | 0 <= i < |eps| && eps[i] !in keys && connect(eps[i]).Connected? :: eps[i]
  }

  /** The connect errors met walking `eps`, in order: every occurrence of a refused endpoint outside `keys`. */
  function Failures(eps: seq<Endpoint>, keys: set<Endpoint>, connect: Endpoint -> ConnectOutcome): seq<ConnectError>
    decreases |eps|
  {
    if |eps| == 0 then []
    else (if eps[0] !in keys && connect(eps[0]).Refused? then [connect(eps[0]).error] else [])
         + Failures(eps[1..], keys, connect)
  }

  /** The aggregate of a list of errors: none, or the first with the rest suppressed. */
  function Aggregate(errors: seq<ConnectError>): Option<Failure> {
    if |errors| == 0 then None else Some(Failure(errors[0], errors[1..]))
  }

  /** Recording `errors` one after the other onto `failure`. */
  function RecordAll(failure: Option<Failure>, errors: seq<ConnectError>): Option<Failure>
    decreases |errors|
  {
    if |errors| == 0 then failure else RecordAll(Record(failure, errors[0]), errors[1..])
  }

  /** Recording onto an existing failure appends to its suppressed causes. */
  lemma {:induction false} RecordAllAppends(f: Failure, errors: seq<ConnectError>)
    ensures RecordAll(Some(f), errors) == Some(f.(suppressed := f.suppressed + errors))
    decreases |errors|
  {
    if |errors| > 0 {
      var f' := f.(suppressed := f.suppressed + [errors[0]]);
      assert Record(Some(f), errors[0]) == Some(f');
      RecordAllAppends(f', errors[1..]);
      assert errors == [errors[0]] + errors[1..];
      assert f.suppressed + [errors[0]] + errors[1..] == f.suppressed + errors;
    } else {
      assert f.suppressed + errors == f.suppressed;
    }
  }

  /** Recording from nothing gives the aggregate: the first error primary, the rest suppressed in order. */
  lemma RecordAllIsAggregate(errors: seq<ConnectError>)
    ensures RecordAll(None, errors) == Aggregate(errors)
  {
    if |errors| > 0 {
      assert RecordAll(None, errors) == RecordAll(Some(Failure(errors[0], [])), errors[1..]);
      RecordAllAppends(Failure(errors[0], []), errors[1..]);
      assert [] + errors[1..] == errors[1..];
    }
  }

  /** Adding connected endpoints to the key set does not change which errors are met. */
  lemma {:induction false} FailuresIgnoreConnected(eps: seq<Endpoint>, keys: set<Endpoint>, ep: Endpoint,
                                                   connect: Endpoint -> ConnectOutcome)
    requires connect(ep).Connected?
    ensures Failures(eps, keys + {ep}, connect) == Failures(eps, keys, connect)
    decreases |eps|
  {
    if |eps| > 0 {
      FailuresIgnoreConnected(eps[1..], keys, ep, connect);
    }
  }

  lemma NewlyConnectedStep(eps: seq<Endpoint>, keys: set<Endpoint>, connect: Endpoint -> ConnectOutcome)
    requires |eps| > 0
    ensures var added := if eps[0] !in keys && connect(eps[0]).Connected? then {eps[0]} else {};
      keys + NewlyConnected(eps, keys, connect) == keys + added + NewlyConnected(eps[1..], keys + added, connect)
  {
    var added := if eps[0] !in keys && connect(eps[0]).Connected? then {eps[0]} else {};
    var lhs := keys + NewlyConnected(eps, keys, connect);
    var rhs := keys + added + NewlyConnected(eps[1..], keys + added, connect);
    forall e | e in lhs ensures e in rhs {
      if e !in keys {
        var i :| 0 <= i < |eps| && eps[i] == e && e !in keys && connect(e).Connected?;
        if i > 0 && e !in added {
          assert eps[1..][i - 1] == e;
        }
      }
    }
    forall e | e in rhs ensures e in lhs {
      if e !in keys + added {
        var i :| 0 <= i < |eps[1..]| && eps[1..][i] == e && e !in keys + added && connect(e).Connected?;
        assert eps[i + 1] == e;
      }
    }
  }

  /**
   The loop without a concurrent close, from an open watcher: existing
   entries stay, exactly the endpoints whose connect succeeds are added, and
   the errors met are recorded in order.
   */
  lemma {:induction false} VisitSequential(p: Progress, eps: seq<Endpoint>, connect: Endpoint -> ConnectOutcome)
    requires !p.watcher.closed
    ensures var q := Visit(p, eps, connect, None);
      var before := p.watcher.connections;
      var after := q.watcher.connections;
      && !q.watcher.closed
      && after.Keys == before.Keys + NewlyConnected(eps, before.Keys, connect)
      && (forall e :: e in before ==> after[e] == before[e])
      && (forall e :: e in after && e !in before ==> connect(e) == Connected(after[e]))
      && q.failure == RecordAll(p.failure, Failures(eps, before.Keys, connect))
      && q.released == p.released
      && (after.Keys == before.Keys ==> q.established == p.established)
    decreases |eps|
  {
    if |eps| > 0 {
      var ep := eps[0];
      var before := p.watcher.connections;
      var next := Attempt(p, ep, connect);
      VisitSequential(next, eps[1..], connect);
      NewlyConnectedStep(eps, before.Keys, connect);
      var q := Visit(p, eps, connect, None);
      assert q == Visit(next, eps[1..], connect, None);
      if ep in before {
        assert next == p;
        assert Failures(eps, before.Keys, connect) == Failures(eps[1..], before.Keys, connect);
      } else if connect(ep).Connected? {
        FailuresIgnoreConnected(eps[1..], before.Keys, ep, connect);
        assert Failures(eps, before.Keys, connect) == Failures(eps[1..], before.Keys, connect);
        assert next.failure == p.failure;
        assert next.watcher.connections.Keys == before.Keys + {ep};
        assert ep in q.watcher.connections.Keys;
      } else {
        var err := connect(ep).error;
        assert Failures(eps, before.Keys, connect) == [err] + Failures(eps[1..], before.Keys, connect);
        assert ([err] + Failures(eps[1..], before.Keys, connect))[1..] == Failures(eps[1..], before.Keys, connect);
      }
    }
  }

  /**
   A bootstrap of an open watcher with no concurrent close: the new key set
   is the old one plus the endpoints whose connect succeeded, existing
   entries are untouched, new entries hold the connection their connect
   produced, and the failure is the first error with the later ones
   suppressed in order.
   */
  lemma BootstrapSequential(w: Watcher, connect: Endpoint -> ConnectOutcome)
    requires !w.closed
    ensures var r := InitializeSentinels(w, connect, None);
      && !r.watcher.closed
      && r.watcher.connections.Keys == w.connections.Keys + NewlyConnected(w.sentinels, w.connections.Keys, connect)
      && (forall e :: e in w.connections ==> r.watcher.connections[e] == w.connections[e])
      && (forall e :: e in r.watcher.connections && e !in w.connections ==> connect(e) == Connected(r.watcher.connections[e]))
      && r.failure == Aggregate(Failures(w.sentinels, w.connections.Keys, connect))
      && r.released == {}
  {
    VisitSequential(Progress(w, [], {}, None), w.sentinels, connect);
    RecordAllIsAggregate(Failures(w.sentinels, w.connections.Keys, connect));
  }

  /**
   Bootstrapping again with the same connect outcomes opens nothing and
   changes nothing: endpoints already connected are skipped, and refused
   ones are retried and refused again.
   */
  lemma BootstrapTwiceOpensNothing(w: Watcher, connect: Endpoint -> ConnectOutcome)
    requires !w.closed
    ensures var r1 := InitializeSentinels(w, connect, None);
      var r2 := InitializeSentinels(r1.watcher, connect, None);
      r2.watcher == r1.watcher && r2.established == [] && r2.released == {}
  {
    var r1 := InitializeSentinels(w, connect, None);
    BootstrapSequential(w, connect);
    var w1 := r1.watcher;
    var k1 := w1.connections.Keys;
    VisitSequential(Progress(w1, [], {}, None), w1.sentinels, connect);
    var r2 := InitializeSentinels(w1, connect, None);
    assert NewlyConnected(w1.sentinels, k1, connect) == {};
    assert r2.watcher.connections.Keys == k1;
    assert r2.watcher.connections == w1.connections;
  }

  // ---------------------------------------------------------------------------
  // bind, the scheduled actions, processMessage
  // ---------------------------------------------------------------------------

  /** `bind(runnable)`: append the runnable, then bootstrap. It is appended even on a closed watcher. */
  function Bind(w: Watcher, runnable: Runnable, connect: Endpoint -> ConnectOutcome, closeAt: Option<nat>): (r: Bootstrap)
    ensures r.watcher.runnables == w.runnables + [runnable]
    ensures r.thrown == None
    ensures w.closed ==> r == Bootstrap(w.(runnables := w.runnables + [runnable]), [], {}, None, None)
    ensures r.watcher.closed <==> w.closed || closeAt.Some?
    ensures !w.closed && r.watcher.closed ==> r.watcher.connections == map[]
    ensures NoLeak(w.connections, r.established, r.released, r.watcher.connections)
    ensures Valid(w) ==> Valid(r.watcher)
    ensures r.watcher == w.(runnables := w.runnables + [runnable], closed := r.watcher.closed,
                            connections := r.watcher.connections)
    ensures r.watcher.connections.Keys <= w.connections.Keys + set e | e in w.sentinels
    ensures !w.closed && closeAt.None? ==>
      r.watcher.connections.Keys == w.connections.Keys + NewlyConnected(w.sentinels, w.connections.Keys, connect)
    ensures !w.closed && closeAt.None? ==>
      forall e :: e in w.connections ==> r.watcher.connections[e] == w.connections[e]
  {
    var registered := w.(runnables := w.runnables + [runnable]);
    var r := InitializeSentinels(registered, connect, closeAt);
    if !registered.closed then BootstrapSequential(registered, connect); r else r
  }

  /** Binds each runnable in turn, with no concurrent close. */
  function BindAll(w: Watcher, rs: seq<Runnable>, connect: Endpoint -> ConnectOutcome): Watcher
    decreases |rs|
  {
    if |rs| == 0 then w else BindAll(Bind(w, rs[0], connect, None).watcher, rs[1..], connect)
  }

  /** What running a scheduled action did: the watcher afterwards and the runnables it ran, in order. */
  datatype Ran = Ran(watcher: Watcher, invoked: seq<Runnable>)

  /**
   Running a dispatched action: the refresh action runs the bound runnables
   as the list stands when it runs; the reconnect action bootstraps again.
   */
  function RunAction(w: Watcher, action: Action, connect: Endpoint -> ConnectOutcome, closeAt: Option<nat>): (r: Ran)
    ensures action.RefreshTopology? ==> r.watcher == w && r.invoked == w.runnables
    ensures action.ReconnectSentinels? ==> r.invoked == [] && r.watcher.runnables == w.runnables
    ensures r.watcher == w.(closed := r.watcher.closed, connections := r.watcher.connections)
    ensures Valid(w) ==> Valid(r.watcher)
    ensures action.ReconnectSentinels? && !w.closed && closeAt.None? ==>
      r.watcher.connections.Keys == w.connections.Keys + NewlyConnected(w.sentinels, w.connections.Keys, connect)
    ensures action.ReconnectSentinels? && !w.closed && closeAt.None? ==>
      forall e :: e in w.connections ==> r.watcher.connections[e] == w.connections[e]
    ensures action.ReconnectSentinels? ==> (r.watcher.closed <==> w.closed || closeAt.Some?)
    ensures action.ReconnectSentinels? && !w.closed && r.watcher.closed ==> r.watcher.connections == map[]
    ensures w.closed ==> r.watcher == w
  {
    match action
    case RefreshTopology => Ran(w, w.runnables)
    case ReconnectSentinels =>
      var r := Ran(InitializeSentinels(w, connect, closeAt).watcher, []);
      if !w.closed then BootstrapSequential(w, connect); r else r
  }

  /** The refresh action runs every bound runnable, in registration order. */
  lemma {:induction false} RefreshRunsBoundRunnablesInOrder(w: Watcher, rs: seq<Runnable>,
                                                            connect: Endpoint -> ConnectOutcome)
    ensures var bound := BindAll(w, rs, connect);
      RunAction(bound, RefreshTopology, connect, None).invoked == w.runnables + rs
    decreases |rs|
  {
    if |rs| > 0 {
      var w1 := Bind(w, rs[0], connect, None).watcher;
      RefreshRunsBoundRunnablesInOrder(w1, rs[1..], connect);
      assert w.runnables + [rs[0]] + rs[1..] == w.runnables + rs;
    }
  }

  /** What one delivered message did: the watcher afterwards and what the executor was asked. */
  datatype Delivery = Delivery(watcher: Watcher, dispatched: seq<Dispatch>)

  /**
   `processMessage(pattern, channel, message)` at time `now`: both schedulers
   see the message, each on its own window, and their requests are
   collected topology first. `shuttingDown` is the executor group's answer.
   */
  function ProcessMessage(w: Watcher, channel: string, message: string, now: int, shuttingDown: bool): (r: Delivery)
    ensures r.watcher == w.(topologyRefresh := r.watcher.topologyRefresh, sentinelReconnect := r.watcher.sentinelReconnect)
    ensures Valid(w) ==> Valid(r.watcher)
    ensures |r.dispatched| <= 2
    ensures forall d :: d in r.dispatched ==> d.Schedule? && d.delayMillis == TimeoutMillis
    ensures Valid(w) ==>
      (Schedule(RefreshTopology, TimeoutMillis) in r.dispatched <==>
         !shuttingDown && TopologyRefreshTest(w.masterId, channel, message) && Admits(w.topologyRefresh.slot, now))
    ensures Valid(w) ==>
      (Schedule(ReconnectSentinels, TimeoutMillis) in r.dispatched <==>
         !shuttingDown && SentinelReconnectTest(channel, message) && Admits(w.sentinelReconnect.slot, now))
    ensures Valid(w) ==>
      r.dispatched
        == (if !shuttingDown && TopologyRefreshTest(w.masterId, channel, message) && Admits(w.topologyRefresh.slot, now)
            then [Schedule(RefreshTopology, TimeoutMillis)] else [])
           + (if !shuttingDown && SentinelReconnectTest(channel, message) && Admits(w.sentinelReconnect.slot, now)
              then [Schedule(ReconnectSentinels, TimeoutMillis)] else [])
    ensures r.dispatched == [] ==> r.watcher == w
    ensures r.watcher.topologyRefresh == w.topologyRefresh.(slot :=
      if Schedule(RefreshTopology, TimeoutMillis) in r.dispatched then Some(Timeout(now)) else w.topologyRefresh.slot)
    ensures r.watcher.sentinelReconnect == w.sentinelReconnect.(slot :=
      if Schedule(ReconnectSentinels, TimeoutMillis) in r.dispatched then Some(Timeout(now)) else w.sentinelReconnect.slot)
  {
    var topology := ActionScheduler.ProcessMessage(w.topologyRefresh, shuttingDown, channel, message, now, RefreshTopology);
    var reconnect := ActionScheduler.ProcessMessage(w.sentinelReconnect, shuttingDown, channel, message, now, ReconnectSentinels);
    Delivery(w.(topologyRefresh := topology.scheduler, sentinelReconnect := reconnect.scheduler),
             topology.dispatched + reconnect.dispatched)
  }

  /**
   The two schedulers react independently: what one of them does with a
   message does not depend on the other's window, nor on the connections,
   runnables or closed flag.
   */
  lemma SchedulersAreIndependent(w: Watcher, v: Watcher, channel: string, message: string, now: int,
                                 shuttingDown: bool)
    ensures w.topologyRefresh == v.topologyRefresh ==>
      var rw := ProcessMessage(w, channel, message, now, shuttingDown);
      var rv := ProcessMessage(v, channel, message, now, shuttingDown);
      && rw.watcher.topologyRefresh == rv.watcher.topologyRefresh
      && (Schedule(RefreshTopology, TimeoutMillis) in rw.dispatched
          <==> Schedule(RefreshTopology, TimeoutMillis) in rv.dispatched)
    ensures w.sentinelReconnect == v.sentinelReconnect ==>
      var rw := ProcessMessage(w, channel, message, now, shuttingDown);
      var rv := ProcessMessage(v, channel, message, now, shuttingDown);
      && rw.watcher.sentinelReconnect == rv.watcher.sentinelReconnect
      && (Schedule(ReconnectSentinels, TimeoutMillis) in rw.dispatched
          <==> Schedule(ReconnectSentinels, TimeoutMillis) in rv.dispatched)
  {
  }
}

=== FILE: text.dfy ===
/**
 The two `java.lang.String` queries the message predicates use: `startsWith`
 and `contains`. Strings are sequences of characters; no case folding or
 normalisation takes place, as in Java.
 */
module Text {

  /** `String.startsWith`: `prefix` is an initial segment of `s`. */
  predicate StartsWith(s: string, prefix: string) {
    |prefix| <= |s| && s[..|prefix|] == prefix
  }

  /** `sub` occurs in `s` starting at index `i`. */
  predicate OccursAt(s: string, sub: string, i: int) {
    0 <= i && i + |sub| <= |s| && s[i..i + |sub|] == sub
  }

  /** `String.contains`: `sub` is a prefix of some suffix of `s`, scanning left to right. */
  predicate Contains(s: string, sub: string)
    decreases |s|
  {
    StartsWith(s, sub) || (|s| > 0 && Contains(s[1..], sub))
  }

  /** A prefix is an occurrence at index 0, and conversely. */
  lemma StartsWithIsOccurrenceAtZero(s: string, prefix: string)
    ensures StartsWith(s, prefix) <==> OccursAt(s, prefix, 0)
  {
    if |prefix| <= |s| {
      assert s[0..|prefix|] == s[..|prefix|];
    }
  }

  /** The scan finds `sub` exactly when it occurs somewhere in `s`. */
  lemma {:induction false} ContainsIffOccurs(s: string, sub: string)
    ensures Contains(s, sub) <==> exists i :: OccursAt(s, sub, i)
    decreases |s|
  {
    StartsWithIsOccurrenceAtZero(s, sub);
    if |s| > 0 {
      var t := s[1..];
      ContainsIffOccurs(t, sub);
      if Contains(t, sub) {
        var i :| OccursAt(t, sub, i);
        assert s[i + 1..i + 1 + |sub|] == t[i..i + |sub|];
        assert OccursAt(s, sub, i + 1);
      }
      if i :| OccursAt(s, sub, i) {
        if i > 0 {
          assert t[i - 1..i - 1 + |sub|] == s[i..i + |sub|];
          assert OccursAt(t, sub, i - 1);
        }
      }
    } else {
      if i :| OccursAt(s, sub, i) {
        assert i == 0;
      }
    }
  }
}

=== FILE: timed_semaphore.dfy ===
/**
 `TimedSemaphore`: a single slot holding the most recent admission window
 (a `Timeout` of five seconds). A trigger arriving while the window is open
 is dropped; otherwise a fresh window opened now replaces the old one through
 compare-and-set and the consumer is called with it.

 Time is an integer millisecond clock. The `Timeout` class is not part of
 this model; its behaviour is assumed to be: expired exactly when
 `now >= openedAt + duration`, and `remaining() == openedAt + duration - now`.
 */
module TimedSemaphore {

  import opened Options

  /** The window length: `timeout = 5` in `TimeUnit.SECONDS`. */
  const TimeoutMillis: int := 5 * 1000

  /** A `Timeout` created at `openedAt` with duration `TimeoutMillis`. */
  datatype Timeout = Timeout(openedAt: int)

  predicate IsExpired(t: Timeout, now: int) {
    now >= t.openedAt + TimeoutMillis
  }

  function Remaining(t: Timeout, now: int): int {
    t.openedAt + TimeoutMillis - now
  }

  /** `AtomicReference.compareAndSet`: the new slot and whether the swap happened. */
  datatype Swap = Swap(slot: Option<Timeout>, swapped: bool)

  function CompareAndSet(current: Option<Timeout>, expected: Option<Timeout>, update: Option<Timeout>): Swap {
    if current == expected then Swap(update, true) else Swap(current, false)
  }

  /** Whether `onEvent` called its consumer, and with which (possibly null) `Timeout`. */
  datatype ConsumerCall = NotCalled | CalledWith(timeout: Option<Timeout>)

  datatype Admission = Admission(slot: Option<Timeout>, call: ConsumerCall)

  /** The slot lets a trigger at `now` through: it is empty or its window has expired. */
  predicate Admits(slot: Option<Timeout>, now: int) {
    slot.None? || IsExpired(slot.value, now)
  }

  /**
   `onEvent` at time `now` on the slot `slot`. In a sequential setting the
   slot read at the start is still current at the compare-and-set, so the
   swap always succeeds.
   */
  function OnEvent(slot: Option<Timeout>, now: int): (r: Admission)
    ensures !Admits(slot, now) ==> r.slot == slot && r.call == NotCalled
    ensures Admits(slot, now) ==> r.slot == Some(Timeout(now)) && r.call == CalledWith(r.slot)
    ensures r.call.CalledWith? ==>
              && r.call.timeout.Some?
              && !IsExpired(r.call.timeout.value, now)
              && Remaining(r.call.timeout.value, now) == TimeoutMillis
  {
    var existing := slot;
    if existing.Some? && !IsExpired(existing.value, now) then
      Admission(slot, NotCalled)
    else
      var timeout := Timeout(now);
      var swap := CompareAndSet(slot, existing, Some(timeout));
      if swap.swapped then Admission(swap.slot, CalledWith(Some(timeout)))
      else Admission(swap.slot, NotCalled)
  }

  // ---------------------------------------------------------------------------
  // Coalescing over a sequence of triggers.
  // ---------------------------------------------------------------------------

  datatype Replayed = Replayed(slot: Option<Timeout>, admitted: seq<int>)

  /** Feeds triggers at the given times to `OnEvent`, collecting the times whose trigger was admitted. */
  function Replay(slot: Option<Timeout>, times: seq<int>): Replayed
    decreases |times|
  {
    if |times| == 0 then Replayed(slot, [])
    else
      var a := OnEvent(slot, times[0]);
      var rest := Replay(a.slot, times[1..]);
      Replayed(rest.slot, (if a.call.CalledWith? then [times[0]] else []) + rest.admitted)
  }

  /** Any two admissions are at least one window length apart. */
  predicate Spaced(admitted: seq<int>) {
    forall i, j :: 0 <= i < j < |admitted| ==> admitted[i] + TimeoutMillis <= admitted[j]
  }

  predicate NonDecreasing(times: seq<int>) {
    forall i, j :: 0 <= i < j < |times| ==> times[i] <= times[j]
  }

  /** `t` falls inside the window opened at `openedAt`. */
  predicate InWindow(openedAt: int, t: int) {
    openedAt <= t < openedAt + TimeoutMillis
  }

  /** One step of the replay: the first trigger is admitted exactly when the slot admits it. */
  lemma ReplayStep(slot: Option<Timeout>, times: seq<int>)
    requires |times| > 0
    ensures var rest := Replay(if Admits(slot, times[0]) then Some(Timeout(times[0])) else slot, times[1..]);
      && Replay(slot, times).slot == rest.slot
      && Replay(slot, times).admitted == (if Admits(slot, times[0]) then [times[0]] else []) + rest.admitted
  {
  }

  /** Every admitted time is a trigger time. */
  lemma {:induction false} ReplayAdmitsTriggerTimes(slot: Option<Timeout>, times: seq<int>)
    ensures var r := Replay(slot, times);
      forall k :: 0 <= k < |r.admitted| ==> r.admitted[k] in times
    decreases |times|
  {
    if |times| > 0 {
      ReplayStep(slot, times);
      var next := if Admits(slot, times[0]) then Some(Timeout(times[0])) else slot;
      ReplayAdmitsTriggerTimes(next, times[1..]);
      var rest := Replay(next, times[1..]);
      forall k | 0 <= k < |rest.admitted| ensures rest.admitted[k] in times {
        assert rest.admitted[k] in times[1..];
      }
    }
  }

  /** The slot ends holding the window of the last admission, or the initial one if none. */
  lemma {:induction false} ReplayFinalSlot(slot: Option<Timeout>, times: seq<int>)
    ensures var r := Replay(slot, times);
      r.slot == if |r.admitted| == 0 then slot else Some(Timeout(r.admitted[|r.admitted| - 1]))
    decreases |times|
  {
    if |times| > 0 {
      ReplayStep(slot, times);
      var next := if Admits(slot, times[0]) then Some(Timeout(times[0])) else slot;
      ReplayFinalSlot(next, times[1..]);
    }
  }

  /** Nothing is admitted before the window already in the slot expires. */
  lemma {:induction false} ReplayWaitsForExpiry(slot: Option<Timeout>, times: seq<int>)
    requires slot.Some?
    ensures var r := Replay(slot, times);
      forall k :: 0 <= k < |r.admitted| ==> slot.value.openedAt + TimeoutMillis <= r.admitted[k]
    decreases |times|
  {
    if |times| > 0 {
      ReplayStep(slot, times);
      var next := if Admits(slot, times[0]) then Some(Timeout(times[0])) else slot;
      ReplayWaitsForExpiry(next, times[1..]);
      if Admits(slot, times[0]) {
        assert IsExpired(slot.value, times[0]);
      }
    }
  }

  /**
   Whatever the order of the triggers, the admissions are pairwise a window
   length apart: each window schedules at most one action.
   */
  lemma {:induction false} ReplaySpaced(slot: Option<Timeout>, times: seq<int>)
    ensures Spaced(Replay(slot, times).admitted)
    decreases |times|
  {
    if |times| > 0 {
      ReplayStep(slot, times);
      var next := if Admits(slot, times[0]) then Some(Timeout(times[0])) else slot;
      var rest := Replay(next, times[1..]);
      ReplaySpaced(next, times[1..]);
      if Admits(slot, times[0]) {
        ReplayWaitsForExpiry(next, times[1..]);
        var adm := [times[0]] + rest.admitted;
        forall i, j | 0 <= i < j < |adm| ensures adm[i] + TimeoutMillis <= adm[j] {
          assert adm[j] == rest.admitted[j - 1];
          if i > 0 {
            assert adm[i] == rest.admitted[i - 1];
          } else {
            assert adm[i] == next.value.openedAt;
          }
        }
      }
    }
  }

  /**
   A burst: when the slot admits the first trigger and every later trigger
   falls inside the window that trigger opens, exactly the first one is
   admitted.
   */
  lemma {:induction false} BurstAdmitsOnlyFirst(slot: Option<Timeout>, times: seq<int>)
    requires |times| > 0
    requires Admits(slot, times[0])
    requires forall i :: 0 <= i < |times| ==> InWindow(times[0], times[i])
    ensures Replay(slot, times).admitted == [times[0]]
    ensures Replay(slot, times).slot == Some(Timeout(times[0]))
  {
    var w := Some(Timeout(times[0]));
    assert OnEvent(slot, times[0]).slot == w;
    DropsInsideWindow(times[0], times[1..]);
  }

  /** Triggers inside an open window change nothing. */
  lemma {:induction false} DropsInsideWindow(openedAt: int, times: seq<int>)
    requires forall i :: 0 <= i < |times| ==> InWindow(openedAt, times[i])
    ensures Replay(Some(Timeout(openedAt)), times) == Replayed(Some(Timeout(openedAt)), [])
    decreases |times|
  {
    if |times| > 0 {
      assert InWindow(openedAt, times[0]);
      DropsInsideWindow(openedAt, times[1..]);
    }
  }

  /** Some window known so far — the initial one or an admitted one — covers `t`. */
  predicate Covered(slot: Option<Timeout>, admitted: seq<int>, t: int) {
    || (slot.Some? && InWindow(slot.value.openedAt, t))
    || (exists k :: 0 <= k < |admitted| && InWindow(admitted[k], t))
  }

  /**
   No qualifying activity goes unanswered: over time-ordered triggers, each
   trigger lies inside a window that scheduled an action — the one it opened
   itself, or an earlier one it was dropped for.
   */
  lemma {:induction false} ReplayCovers(slot: Option<Timeout>, times: seq<int>)
    requires NonDecreasing(times)
    requires slot.Some? && |times| > 0 ==> slot.value.openedAt <= times[0]
    ensures forall i :: 0 <= i < |times| ==> Covered(slot, Replay(slot, times).admitted, times[i])
    decreases |times|
  {
    if |times| > 0 {
      var a := OnEvent(slot, times[0]);
      var tail := times[1..];
      var rest := Replay(a.slot, tail);
      var r := Replay(slot, times);
      assert NonDecreasing(tail);
      assert a.slot.Some? && |tail| > 0 ==> a.slot.value.openedAt <= tail[0];
      ReplayCovers(a.slot, tail);
      if a.call.CalledWith? {
        assert r.admitted == [times[0]] + rest.admitted;
        assert InWindow(r.admitted[0], times[0]);
        forall i | 0 <= i < |times| ensures Covered(slot, r.admitted, times[i]) {
          if i > 0 {
            assert Covered(a.slot, rest.admitted, tail[i - 1]);
            if a.slot.Some? && InWindow(a.slot.value.openedAt, tail[i - 1]) {
              assert InWindow(r.admitted[0], times[i]);
            } else {
              var k :| 0 <= k < |rest.admitted| && InWindow(rest.admitted[k], tail[i - 1]);
              assert r.admitted[k + 1] == rest.admitted[k];
            }
          }
        }
      } else {
        assert r.admitted == rest.admitted && a.slot == slot;
        forall i | 0 <= i < |times| ensures Covered(slot, r.admitted, times[i]) {
          if i > 0 {
            assert Covered(a.slot, rest.admitted, tail[i - 1]);
          }
        }
      }
    }
  }
}
